=== FILE: README.md ===
# slf4j-android-logger, modelled in Dafny

This project models the core of *slf4j-android-logger*, the SLF4J binding
that sends log calls to `android.util.Log`. It covers:

- **Caller resolution.** Each `AndroidLoggerAdapter` compiles the pattern
  `name(\$+.*)?` from its logger name. On every emitted message it scans
  the current stack for the first frame whose class the pattern fully
  matches. If no frame matches, it falls back to the `NOT_FOUND`
  placeholder.
- **Message enhancement.** The adapter turns the message into
  `<message> [<SimpleClass>:<method>:<line>] <thread>`.
- **The level gate.** `LogLevel` maps the five SLF4J levels onto the
  Android priorities VERBOSE=2 … ERROR=6. `isLevelEnabled` compares a
  level against the process-wide threshold. `log` and `formatAndLog`
  produce nothing below the threshold.
- **Configuration.** The property lookup prefers the system property, then
  the bundled file, then the default. `stringToLevel` is case-insensitive
  and falls back to INFO.
- **The logger registry.** `AndroidLoggerFactory.getLogger` is a
  check-then-insert cache holding one adapter per name.

Layout, one module per concern:

- `options.dfy`: `Options`, for values the Java code may return as `null`.
- `text.dfy`: `Text`, with `lastIndexOf`, `equalsIgnoreCase` and `Integer.toString`.
- `log_level.dfy`: `AndroidLog` holds the platform priorities and `LogLevels` holds the enum.
- `caller_pattern.dfy`: `CallerPattern`, the compiled name pattern and its full-match semantics.
- `caller.dfy`: `CallerResolution`, with `determineCaller`, `getClassNameOnly` and `enhanced`.
- `configuration.dfy`: `Configuration`, with the property getters, `stringToLevel`, the static initialiser and `isLevelEnabled`.
- `adapter.dfy`: `AdapterCore`, with the adapter, the dispatch `switch`, `log` and `formatAndLog`.
- `factory.dfy`: `Factory`, the registry.

Modelling choices:

- The process-wide threshold and tag are static fields in the source. Here
  they are an explicit `Config` value passed to each call, so `setLogLevel`
  and `setLogTag` become record updates.
- The calling thread's stack (`Thread.getStackTrace()`) and the thread's
  `toString()` are parameters.
- The SLF4J message formatter is a function parameter.
- A Java regex `.` does not match line terminators, and this is modelled.
- Java's `equalsIgnoreCase` is modelled only against the lower-case ASCII
  keywords the code compares with. That comparison is exact: a character
  equals an ASCII letter ignoring case when it is that letter in either
  case, or one of U+0130, U+0131 (i), U+017F (s) and U+212A (k).

## Model

| member | source | states |
|---|---|---|
| LogLevels.AndroidPriority | src/main/java/de/psdev/slf4j/android/logger/LogLevel.java:5-20 | each level's priority is VERBOSE (2) plus its declaration position, so TRACE, DEBUG, INFO, WARN, ERROR get 2..6 |
| LogLevels.LevelOfPriority | src/main/java/de/psdev/slf4j/android/logger/LogLevel.java:6-10 | the reverse table is defined exactly on the priorities 2..6 |
| LogLevels.PriorityRoundTrip | src/main/java/de/psdev/slf4j/android/logger/LogLevel.java:6-10 | every level is recovered from its priority |
| LogLevels.LevelOfPriorityRoundTrip | src/main/java/de/psdev/slf4j/android/logger/LogLevel.java:6-10 | every priority in 2..6 is the priority of the level it maps back to |
| LogLevels.PriorityInjective | src/main/java/de/psdev/slf4j/android/logger/LogLevel.java:6-10 | two levels share a priority only if they are the same level |
| LogLevels.PriorityOrderIsDeclarationOrder | src/main/java/de/psdev/slf4j/android/logger/LogLevel.java:5-10 | priority order and enum declaration order agree |
| Text.LastIndexOf | src/main/java/de/psdev/slf4j/android/logger/AndroidLoggerAdapter.java:686 | -1 exactly when the character is absent, otherwise the position of its last occurrence |
| Text.IntToDecimal | src/main/java/de/psdev/slf4j/android/logger/AndroidLoggerAdapter.java:672 | the rendering of the line number is a non-empty digit string, with a leading minus exactly for negative numbers followed by digits; there is never a leading zero, except in `0` itself |
| Text.IntRoundTrip | src/main/java/de/psdev/slf4j/android/logger/AndroidLoggerAdapter.java:672 | the rendered line number reads back to the same integer |
| Text.DecimalRoundTrip | src/main/java/de/psdev/slf4j/android/logger/AndroidLoggerAdapter.java:672 | the digits of a natural number read back to that number |
| Text.FoldUpper | src/main/java/de/psdev/slf4j/android/logger/AndroidLoggerAdapter.java:704-721 | ASCII upper-casing does not change what a string equals ignoring case |
| CallerPattern.CompileAsWritten | src/main/java/de/psdev/slf4j/android/logger/AndroidLoggerAdapter.java:149 | the unquoted name compiles character by character: `.` to the wildcard, `$` to the end anchor, and anything else to itself |
| CallerPattern.CompileQuoted | src/main/java/de/psdev/slf4j/android/logger/AndroidLoggerAdapter.java:149 | the quoted name compiles every character to itself |
| CallerPattern.AnchorFreeLanguage | src/main/java/de/psdev/slf4j/android/logger/AndroidLoggerAdapter.java:149 | without anchors, a full match is an element-wise matched prefix followed by nothing, or by `$` and a line-terminator-free rest |
| CallerPattern.QuotedLanguage | src/main/java/de/psdev/slf4j/android/logger/AndroidLoggerAdapter.java:149 | the pattern accepts exactly the owner name, or the owner name followed by `$` and a suffix |
| CallerPattern.QuotedPatternLanguage | src/main/java/de/psdev/slf4j/android/logger/AndroidLoggerAdapter.java:149 | the same as QuotedLanguage, for all class names at once |
| CallerPattern.QuotedMatchesOwner | src/main/java/de/psdev/slf4j/android/logger/AndroidLoggerAdapter.java:149 | the owner class itself matches |
| CallerPattern.QuotedMatchesNested | src/test/java/de/psdev/slf4j/android/logger/AndroidLoggerAdapterTest.java:267-273 | a nested class `Owner$Inner` matches |
| CallerPattern.QuotedRejectsOtherContinuation | src/main/java/de/psdev/slf4j/android/logger/AndroidLoggerAdapter.java:149 | the owner name followed by any character other than `$` is rejected, so `Foo` does not accept `FooBar` |
| CallerPattern.AsWrittenDotMatchesAnyChar | src/main/java/de/psdev/slf4j/android/logger/AndroidLoggerAdapter.java:149 | for names without `$`, the source's pattern accepts the name with each `.` standing for any one non-terminator character, followed by a nested suffix |
| CallerPattern.AsWrittenPatternLanguage | src/main/java/de/psdev/slf4j/android/logger/AndroidLoggerAdapter.java:149 | the same as AsWrittenDotMatchesAnyChar, for all class names at once |
| CallerPattern.AsWrittenLanguage | src/main/java/de/psdev/slf4j/android/logger/AndroidLoggerAdapter.java:149 | the unquoted pattern's language: as above for names without `$`, and empty when a `$` is followed by a character other than `$` |
| CallerPattern.AsWrittenMatchesNested | src/main/java/de/psdev/slf4j/android/logger/AndroidLoggerAdapter.java:149 | for a name without `$`, the source's pattern accepts the nested class `name$Inner` |
| CallerPattern.AsWrittenAgreesOnPlainNames | src/main/java/de/psdev/slf4j/android/logger/AndroidLoggerAdapter.java:149 | for names with no `.` and no `$`, the source's pattern is the quoted one |
| CallerPattern.AnchorThenCharNeverMatches | src/main/java/de/psdev/slf4j/android/logger/AndroidLoggerAdapter.java:149 | an end anchor followed by a wildcard or a literal other than a line terminator rules out every full match |
| CallerPattern.AsWrittenDollarNameMatchesNothing | src/main/java/de/psdev/slf4j/android/logger/AndroidLoggerAdapter.java:149 | the source's pattern for a name with `$` followed by a name character matches no class name at all |
| CallerPattern.NestedClassLoggerCounterexample | src/main/java/de/psdev/slf4j/android/logger/AndroidLoggerAdapter.java:149 | the source's pattern for `p.Outer$Inner` rejects `p.Outer$Inner` itself, which the quoted pattern accepts |
| CallerPattern.DotOvermatchCounterexample | src/main/java/de/psdev/slf4j/android/logger/AndroidLoggerAdapter.java:149 | the source's pattern for `a.b` accepts `aXb`, which the quoted pattern rejects |
| CallerResolution.CallerIndex | src/main/java/de/psdev/slf4j/android/logger/AndroidLoggerAdapter.java:677-681 | the scan stops at the first matching frame, and every frame before it fails to match |
| CallerResolution.DetermineCaller | src/main/java/de/psdev/slf4j/android/logger/AndroidLoggerAdapter.java:675-683 | the result is the first matching frame in scan order, with no earlier frame matching; with no match it is NOT_FOUND, and no error is raised |
| CallerResolution.DetermineCallerSkipsNonMatching | src/main/java/de/psdev/slf4j/android/logger/AndroidLoggerAdapter.java:677-681 | frames that do not match before the caller do not change the result |
| CallerResolution.ClassNameOnly | src/main/java/de/psdev/slf4j/android/logger/AndroidLoggerAdapter.java:685-691 | the result is a suffix of the input with no `.`; it is the whole input when the input has no `.`, and otherwise it follows the input's last `.` |
| CallerResolution.ClassNameOnlyOfQualified | src/main/java/de/psdev/slf4j/android/logger/AndroidLoggerAdapter.java:685-691 | `pkg.Simple` gives `Simple` |
| CallerResolution.ClassNameOnlyIdempotent | src/main/java/de/psdev/slf4j/android/logger/AndroidLoggerAdapter.java:685-691 | stripping twice is the same as stripping once |
| CallerResolution.LocationRoundTrip | src/main/java/de/psdev/slf4j/android/logger/AndroidLoggerAdapter.java:668-672 | the bracketed `Class:method:line` reads back into the caller's simple class name, method and line |
| CallerResolution.Layout | src/main/java/de/psdev/slf4j/android/logger/AndroidLoggerAdapter.java:672 | the layout starts with the message, then ` [`, the location, and `] ` followed by the thread, and its length is the sum of the parts plus four |
| CallerResolution.LayoutIsUnique | src/main/java/de/psdev/slf4j/android/logger/AndroidLoggerAdapter.java:672 | a string with the layout's shape is exactly `message + " [" + loc + "] " + thread`, so the parts determine the message |
| CallerResolution.ParseJoined | src/main/java/de/psdev/slf4j/android/logger/AndroidLoggerAdapter.java:672 | `cls:method:digits` splits back into its three parts when the names hold no `:` |
| CallerResolution.Enhanced | src/main/java/de/psdev/slf4j/android/logger/AndroidLoggerAdapter.java:666-673 | the output starts with the message, then ` [`, the caller's location, and `] ` followed by the thread |
| CallerResolution.EnhancedRecoversCaller | src/main/java/de/psdev/slf4j/android/logger/AndroidLoggerAdapter.java:666-673 | the caller's fields can be read back out of an enhanced message |
| CallerResolution.EnhancedWithoutCaller | src/main/java/de/psdev/slf4j/android/logger/AndroidLoggerAdapter.java:95-96 | with no matching frame the message is still produced, as `msg [::0] thread` |
| Configuration.GetStringProperty | src/main/java/de/psdev/slf4j/android/logger/AndroidLoggerAdapter.java:647-654 | the system property if present, else the file's value, else absent |
| Configuration.SystemOverridesFile | src/main/java/de/psdev/slf4j/android/logger/AndroidLoggerAdapter.java:647-654 | lookup is the same as looking up the file overlaid by the system properties |
| Configuration.GetStringPropertyOr | src/main/java/de/psdev/slf4j/android/logger/AndroidLoggerAdapter.java:656-659 | the looked-up value, or the default when both sources lack the key |
| Configuration.GetBooleanProperty | src/main/java/de/psdev/slf4j/android/logger/AndroidLoggerAdapter.java:661-664 | the default when absent; otherwise true exactly when the value is "true" ignoring case |
| Configuration.BooleanPropertyIgnoresCase | src/main/java/de/psdev/slf4j/android/logger/AndroidLoggerAdapter.java:661-664 | upper-casing a value present in the system properties does not change the boolean read, and `TRUE` reads as true whatever the default |
| Configuration.FileBooleanPropertyIgnoresCase | src/main/java/de/psdev/slf4j/android/logger/AndroidLoggerAdapter.java:653-664 | the same for a value found only in the file: upper-casing it does not change the boolean read, and `TRUE` reads as true |
| Configuration.StringToLevel | src/main/java/de/psdev/slf4j/android/logger/AndroidLoggerAdapter.java:703-724 | total: "trace" or "verbose" gives TRACE, "debug", "warn" and "error" give their levels (all ignoring case), and everything else gives INFO |
| Configuration.StringToLevelRoundTrip | src/main/java/de/psdev/slf4j/android/logger/AndroidLoggerAdapter.java:703-724 | each level's name, lower-case or upper-case, parses back to that level |
| Configuration.StringToLevelIgnoresCase | src/main/java/de/psdev/slf4j/android/logger/AndroidLoggerAdapter.java:703-724 | upper-casing a value never changes the parsed level |
| Configuration.Configure | src/main/java/de/psdev/slf4j/android/logger/AndroidLoggerAdapter.java:133-139 | the threshold is the parsed configured level, or INFO when none is set; the tag is the configured one or the default, with system properties preferred |
| Configuration.ConfigureSeesOverlay | src/main/java/de/psdev/slf4j/android/logger/AndroidLoggerAdapter.java:133-139 | the initial configuration depends only on the file overlaid by the system properties: moving every property into the file, with the system's values winning, gives the same threshold and tag |
| Configuration.ConfigureDefaults | src/main/java/de/psdev/slf4j/android/logger/AndroidLoggerAdapter.java:103-104 | with no configuration the result is INFO and `Slf4jAndroidLogger` |
| Configuration.ConfigureFromFile | src/test/java/de/psdev/slf4j/android/logger/AndroidLoggerAdapterTest.java:45-50 | a file with tag `TestLogTag` and level `verbose` gives TRACE and `TestLogTag` |
| Configuration.SetLogLevel | src/main/java/de/psdev/slf4j/android/logger/AndroidLoggerAdapter.java:156-158 | only the threshold changes |
| Configuration.SetLogTag | src/main/java/de/psdev/slf4j/android/logger/AndroidLoggerAdapter.java:164-166 | only the tag changes |
| Configuration.IsLevelEnabled | src/main/java/de/psdev/slf4j/android/logger/AndroidLoggerAdapter.java:698-701 | enabled exactly when the level is at or above the threshold in declaration order |
| Configuration.EnabledIsMonotone | src/main/java/de/psdev/slf4j/android/logger/AndroidLoggerAdapter.java:698-701 | every level above an enabled level is enabled |
| Configuration.ThresholdIsTheBoundary | src/main/java/de/psdev/slf4j/android/logger/AndroidLoggerAdapter.java:698-701 | the threshold itself is enabled and every lower level is disabled |
| AdapterCore.NewAdapter | src/main/java/de/psdev/slf4j/android/logger/AndroidLoggerAdapter.java:147-150 | the adapter keeps its name and compiles it unquoted: for a name without `$` it accepts the name with each `.` standing for any one non-terminator character, followed by a nested suffix; a name with `$` followed by a non-`$` character accepts no class name |
| AdapterCore.NewAdapterQuoted | src/main/java/de/psdev/slf4j/android/logger/AndroidLoggerAdapter.java:149 | the corrected constructor: the adapter keeps its name, and its pattern accepts exactly the owner and its nested classes |
| AdapterCore.SinkFor | src/main/java/de/psdev/slf4j/android/logger/AndroidLoggerAdapter.java:582-601 | the `Log.v/d/i/w/e` entry point chosen for a priority logs at that priority |
| AdapterCore.DispatchIsTotalOnLevels | src/main/java/de/psdev/slf4j/android/logger/AndroidLoggerAdapter.java:582-601 | every level's priority reaches a case of the switch, so the default branch is never taken |
| AdapterCore.Log | src/main/java/de/psdev/slf4j/android/logger/AndroidLoggerAdapter.java:580-643 | one record exactly when the level is enabled; it is sent at the level's priority with the configured tag and the given throwable, and its message starts with the caller's message |
| AdapterCore.FormatAndLog | src/main/java/de/psdev/slf4j/android/logger/AndroidLoggerAdapter.java:573-578 | one record exactly when the level is enabled; it is sent at the level's priority and carries the formatted message and the formatter's throwable |
| AdapterCore.FormatAndLogIsLogOfFormatted | src/main/java/de/psdev/slf4j/android/logger/AndroidLoggerAdapter.java:573-578 | `formatAndLog` is `log` of the formatter's output |
| AdapterCore.DisabledLevelDoesNoWork | src/main/java/de/psdev/slf4j/android/logger/AndroidLoggerAdapter.java:573-581 | at a disabled level the outcome is nothing, and it depends on neither the formatter nor the stack |
| AdapterCore.DebugThresholdScenario | src/main/java/de/psdev/slf4j/android/logger/AndroidLoggerAdapter.java:573-603 | with threshold DEBUG, trace emits nothing, debug emits one DEBUG record, and error emits one ERROR record carrying the throwable |
| AdapterCore.InnerClassCallerIsResolved | src/test/java/de/psdev/slf4j/android/logger/AndroidLoggerAdapterTest.java:267-273 | with the source's pattern, for an owner name without `$`, a call from `Owner$Inner` resolves to that frame ahead of the rejected frames above it on the stack (the adapter's own frames); frames further out, the owner's own included, are never reached; the location names `Owner$Inner` |
| Factory.GetOrCreate | src/main/java/de/psdev/slf4j/android/logger/AndroidLoggerFactory.java:65-71 | afterwards the name is a key and the returned adapter is the stored one; a cached name leaves the map unchanged; a new name gets a fresh adapter for that name; a registry holding only adapters built for their keys stays so, and the returned adapter carries the requested name; no entry is replaced or removed; the map grows by at most one |
| Factory.AndroidLoggerFactory.GetLogger | src/main/java/de/psdev/slf4j/android/logger/AndroidLoggerFactory.java:65-71 | the factory object keeps every cached adapter the one built for its key; afterwards the name maps to the returned adapter, whose name is the key; a cached name leaves the map unchanged; no other entry changes |
| Factory.GetOrCreatePreservesValid | src/main/java/de/psdev/slf4j/android/logger/AndroidLoggerFactory.java:66-69 | every cached adapter stays the one built for its own key |
| Factory.GetOrCreateIdempotent | src/main/java/de/psdev/slf4j/android/logger/AndroidLoggerFactory.java:67-70 | a second request returns the same adapter and stores nothing |
| Factory.GetOrCreateKeepsOthers | src/main/java/de/psdev/slf4j/android/logger/AndroidLoggerFactory.java:66-69 | entries for other names are unchanged |

## Left out

- Reading `logger.properties` through the class loader, and `Properties.load`. This is I/O, so the file appears only as an input map.
- `System.getProperty` and its `SecurityException`. This is a foreign call; a system property is either present in the input map or absent.
- The `android.util.Log` calls themselves. The model stops at the record handed to them: entry point, tag, message and throwable.
- `Thread.currentThread().getStackTrace()` and `Thread.toString()`. These are platform calls and are taken as parameters.
- `MessageFormatter.arrayFormat` and its `{}` substitution. The SLF4J formatter is not part of this model and is a function parameter.
- The per-level facade overloads (`trace`/`debug`/`info`/`warn`/`error` with 0, 1, 2 or many arguments or a throwable, and the `is…Enabled` checks). Each one forwards to `log` or `formatAndLog`, or calls `isLevelEnabled` with a fixed level, so it is covered by those members with the level as a parameter.
- `synchronized` and `ConcurrentHashMap` in the factory. This is a concurrency concern, so `getLogger` is one sequential step.
- Adapter identity. Adapters are immutable values here, so "the identical instance" becomes "an equal value". The model shows that no second adapter is built because a cached name leaves the map unchanged.
- Factory.AndroidLoggerFactory.GetLogger: the stateful wrapper around `GetOrCreate` states its frame conditions with `old`.
- CallerPattern.CompileAsWritten: only names made of non-metacharacters, `.` and `$`, and holding no line terminator, are modelled. Other regex syntax in a logger name, such as `*` or `(`, is outside the model, as is the `PatternSyntaxException` it can raise.
- AdapterCore.NewAdapter: requires such a name, because it compiles the name as the source does; a logger named with other regex syntax is not modelled. It states no language for a name whose `$` characters all sit in one run at its end, such as `a$`.
- Factory.GetOrCreate: requires such a name for the same reason, and so do `Factory.AndroidLoggerFactory.GetLogger` and the registry invariant `Valid`.
- `null` arguments. A `null` message is rendered as `null` by `String.format` (AndroidLoggerAdapter.java:672); `setLogLevel(null)` is accepted (156-158) and then throws a `NullPointerException` in `isLevelEnabled` (700); `getLogger(null)` throws one from `ConcurrentHashMap.containsKey` (AndroidLoggerFactory.java:67). Here messages, levels and names are never null; modelling them would take an `Option` around each.
- `StaticMDCBinder` and `DetermineCallerException`. These are a thin SLF4J hook and a constructor-only exception class.
- Java's 32-bit `int` for line numbers. No arithmetic is done on them, so they are unbounded integers here.

## Findings

| source | as written | input that shows it | evidently intended | confidence | as-written member | corrected member |
|---|---|---|---|---|---|---|
| src/main/java/de/psdev/slf4j/android/logger/AndroidLoggerAdapter.java:149 | the logger name is inserted into the regex unquoted, so a `$` in it is an end-of-input anchor | logger for the nested class `p.Outer$Inner` and a frame of class `p.Outer$Inner`: no frame ever matches, and every message reads `[::0]` | `Pattern.quote(name) + "(\\$+.*)?"` | high, not executed | CallerPattern.AsWrittenDollarNameMatchesNothing | AdapterCore.NewAdapterQuoted |
| src/main/java/de/psdev/slf4j/android/logger/AndroidLoggerAdapter.java:149 | the logger name is inserted into the regex unquoted, so each `.` in it matches any character | logger `a.b` and a frame of class `aXb`: the frame is taken as the caller | `Pattern.quote(name) + "(\\$+.*)?"` | medium (rarely visible with real package names), not executed | CallerPattern.DotOvermatchCounterexample | AdapterCore.NewAdapterQuoted |

The adapter (`AdapterCore.NewAdapter`) compiles the name as the source
does. `AdapterCore.NewAdapterQuoted` is the corrected constructor, and
`CallerPattern.QuotedLanguage` states its language.
`CallerPattern.AsWrittenAgreesOnPlainNames` shows that both patterns are the
same for names without `.` or `$`.

=== FILE: adapter.dfy ===
/** One logger: its name and caller pattern, and the gated path from a log
    call to the record handed to `android.util.Log`. */
module AdapterCore {
  import opened Options
  import opened Text
  import AndroidLog
  import opened LogLevels
  import opened CallerPattern
  import opened CallerResolution
  import opened Configuration

  /** An `AndroidLoggerAdapter`: its name and the pattern compiled from it
      once, at construction. */
  datatype Adapter = Adapter(name: string, pattern: Pattern)

  /** The constructor, as the source writes it: the name is compiled
      unquoted, so each `.` in it matches any one character and a `$`
      followed by anything but `$` leaves a pattern that matches nothing. */
  function NewAdapter(name: string): (a: Adapter)
    requires ModelledName(name)
    ensures a.name == name
    ensures '$' !in name ==>
      forall c {:trigger FullMatch(a.pattern, c)} :: FullMatch(a.pattern, c) <==> AsWrittenAccepts(name, c)
    ensures (exists k :: 0 <= k < |name| - 1 && name[k] == '$' && name[k + 1] != '$') ==>
      forall c {:trigger FullMatch(a.pattern, c)} :: !FullMatch(a.pattern, c)
  {
    AsWrittenLanguage(name);
    Adapter(name, CompileAsWritten(name))
  }

  /** The constructor with the name quoted, as evidently intended: the
      logger accepts exactly its owner and the owner's nested classes. */
  function NewAdapterQuoted(name: string): (a: Adapter)
    ensures a.name == name
    ensures forall c {:trigger FullMatch(a.pattern, c)} ::
      FullMatch(a.pattern, c) <==> OwnerOrNested(name, c)
  {
    QuotedPatternLanguage(name);
    Adapter(name, CompileQuoted(name))
  }

  /** A throwable handed to the logger, known only by its identity. */
  datatype Throwable = Throwable(id: nat)

  /** The five `android.util.Log` entry points `v`, `d`, `i`, `w`, `e`. */
  datatype Sink = LogV | LogD | LogI | LogW | LogE

  /** The priority each entry point logs at. */
  function SinkPriority(s: Sink): int {
    match s
    case LogV => AndroidLog.VERBOSE
    case LogD => AndroidLog.DEBUG
    case LogI => AndroidLog.INFO
    case LogW => AndroidLog.WARN
    case LogE => AndroidLog.ERROR
  }

  /** The `switch` in `log`: the entry point for a priority; the `default`
      branch logs nothing. */
  function SinkFor(priority: int): (r: Option<Sink>)
    ensures r.Some? ==> SinkPriority(r.value) == priority
  {
    if priority == AndroidLog.VERBOSE then Some(LogV)
    else if priority == AndroidLog.DEBUG then Some(LogD)
    else if priority == AndroidLog.INFO then Some(LogI)
    else if priority == AndroidLog.WARN then Some(LogW)
    else if priority == AndroidLog.ERROR then Some(LogE)
    else None
  }

  /** Every level's priority reaches a case of the switch, so its `default`
      branch is never taken. */
  lemma DispatchIsTotalOnLevels(l: LogLevel)
    ensures SinkFor(AndroidPriority(l)).Some?
    ensures SinkPriority(SinkFor(AndroidPriority(l)).value) == AndroidPriority(l)
  {
  }

  /** What reaches the platform sink: entry point, tag, enhanced message and
      the throwable, if any. */
  datatype LogRecord = LogRecord(sink: Sink, tag: string, message: string, throwable: Option<Throwable>)

  /** `log(level, message, throwable)`: nothing when the level is disabled,
      otherwise one record at the level's priority. The stack and the
      thread's rendering are those of the calling thread. */
  function Log(cfg: Config, adapter: Adapter, level: LogLevel, message: string,
               throwable: Option<Throwable>, stack: seq<Frame>, thread: string): (r: Option<LogRecord>)
    ensures r.Some? <==> IsLevelEnabled(level, cfg.threshold)
    ensures r.Some? ==>
      && SinkPriority(r.value.sink) == AndroidPriority(level)
      && r.value.tag == cfg.tag
      && r.value.throwable == throwable
      && r.value.message == Enhanced(adapter.pattern, stack, thread, message)
      && StartsWith(r.value.message, message)
  {
    if IsLevelEnabled(level, cfg.threshold) then
      DispatchIsTotalOnLevels(level);
      match SinkFor(AndroidPriority(level))
      case Some(sink) => Some(LogRecord(sink, cfg.tag, Enhanced(adapter.pattern, stack, thread, message), throwable))
      case None => None
    else None
  }

  /** An argument of a parameterised message. */
  datatype Arg = Value(text: string) | Thrown(t: Throwable)

  /** What the external message formatter returns: the substituted message
      and a trailing throwable argument, if it found one. */
  datatype Formatted = Formatted(message: string, throwable: Option<Throwable>)

  /** `formatAndLog(level, format, args)`: when the level is enabled, format
      with the external `formatter` and log the result; otherwise nothing. */
  function FormatAndLog(cfg: Config, adapter: Adapter, level: LogLevel, format: string, args: seq<Arg>,
                        formatter: (string, seq<Arg>) -> Formatted,
                        stack: seq<Frame>, thread: string): (r: Option<LogRecord>)
    ensures r.Some? <==> IsLevelEnabled(level, cfg.threshold)
    ensures r.Some? ==>
      && SinkPriority(r.value.sink) == AndroidPriority(level)
      && StartsWith(r.value.message, formatter(format, args).message)
      && r.value.throwable == formatter(format, args).throwable
  {
    if IsLevelEnabled(level, cfg.threshold) then
      var ft := formatter(format, args);
      Log(cfg, adapter, level, ft.message, ft.throwable, stack, thread)
    else None
  }

  /** Enabled calls of `formatAndLog` are `log` of the formatted message. */
  lemma FormatAndLogIsLogOfFormatted(cfg: Config, adapter: Adapter, level: LogLevel, format: string,
                                     args: seq<Arg>, formatter: (string, seq<Arg>) -> Formatted,
                                     stack: seq<Frame>, thread: string)
    ensures var ft := formatter(format, args);
            FormatAndLog(cfg, adapter, level, format, args, formatter, stack, thread)
              == Log(cfg, adapter, level, ft.message, ft.throwable, stack, thread)
  {
  }

  /** The short circuit: at a disabled level the outcome depends neither on
      the formatter nor on the stack, so neither formatting nor caller
      resolution takes place. */
  lemma DisabledLevelDoesNoWork(cfg: Config, adapter: Adapter, level: LogLevel, format: string,
                                args: seq<Arg>, f: (string, seq<Arg>) -> Formatted,
                                g: (string, seq<Arg>) -> Formatted,
                                stack1: seq<Frame>, stack2: seq<Frame>, thread1: string, thread2: string)
    requires !IsLevelEnabled(level, cfg.threshold)
    ensures FormatAndLog(cfg, adapter, level, format, args, f, stack1, thread1)
         == FormatAndLog(cfg, adapter, level, format, args, g, stack2, thread2)
         == None
  {
  }

  /** Threshold DEBUG: `trace("x")` emits nothing, `debug("y {}", "z")` one
      DEBUG record beginning "y z", `error("boom", e)` one ERROR record
      carrying `e`. */
  lemma DebugThresholdScenario(adapter: Adapter, formatter: (string, seq<Arg>) -> Formatted,
                               stack: seq<Frame>, thread: string, e: Throwable)
    requires formatter("y {}", [Value("z")]) == Formatted("y z", None)
    ensures Log(Config(DEBUG, "TestLogTag"), adapter, TRACE, "x", None, stack, thread) == None
    ensures var d := FormatAndLog(Config(DEBUG, "TestLogTag"), adapter, DEBUG, "y {}", [Value("z")], formatter, stack, thread);
            d.Some? && d.value.sink == LogD && d.value.tag == "TestLogTag" && StartsWith(d.value.message, "y z")
    ensures var r := Log(Config(DEBUG, "TestLogTag"), adapter, ERROR, "boom", Some(e), stack, thread);
            r.Some? && r.value.sink == LogE && r.value.throwable == Some(e) && StartsWith(r.value.message, "boom")
  {
    var cfg := Config(DEBUG, "TestLogTag");
    assert !IsLevelEnabled(TRACE, cfg.threshold);
    assert IsLevelEnabled(DEBUG, cfg.threshold);
    assert IsLevelEnabled(ERROR, cfg.threshold);
    FormatAndLogIsLogOfFormatted(cfg, adapter, DEBUG, "y {}", [Value("z")], formatter, stack, thread);
    var d := Log(cfg, adapter, DEBUG, "y z", None, stack, thread);
    assert SinkPriority(d.value.sink) == AndroidLog.DEBUG;
    var r := Log(cfg, adapter, ERROR, "boom", Some(e), stack, thread);
    assert SinkPriority(r.value.sink) == AndroidLog.ERROR;
  }

  /** A call from an inner class of the logger's owner is attributed to the
      inner class. The stack runs from the top down, so `above` are the
      frames the scan meets first (the adapter's own frames); the pattern
      rejects them, the inner class's frame is chosen ahead of them, and
      frames further out in `rest`, the owner's own included, are never
      reached. The message carries the inner class's simple name. The
      owner's name holds no `$`, so the pattern is live. */
  lemma {:induction false} InnerClassCallerIsResolved(pkg: string, owner: string, inner: string, methodName: string, line: int,
                                   above: seq<Frame>, rest: seq<Frame>, thread: string, message: string)
    requires ModelledName(pkg + "." + owner) && '$' !in pkg + "." + owner
    requires '.' !in owner && '.' !in inner
    requires forall i :: 0 <= i < |inner| ==> !IsLineTerminator(inner[i])
    requires forall j :: 0 <= j < |above| ==> !AsWrittenAccepts(pkg + "." + owner, above[j].className)
    ensures var a := NewAdapter(pkg + "." + owner);
            var f := Frame(pkg + "." + owner + "$" + inner, methodName, line);
            && DetermineCaller(a.pattern, above + [f] + rest) == f
            && Location(f) == owner + "$" + inner + ":" + methodName + ":" + IntToDecimal(line)
  {
    var name := pkg + "." + owner;
    var a := NewAdapter(name);
    var f := Frame(name + "$" + inner, methodName, line);
    AsWrittenMatchesNested(name, inner);
    assert FrameMatches(a.pattern, f);
    forall j | 0 <= j < |above| ensures !FrameMatches(a.pattern, above[j]) {
      assert !AsWrittenAccepts(name, above[j].className);
    }
    DetermineCallerSkipsNonMatching(a.pattern, above, [f] + rest);
    assert above + [f] + rest == above + ([f] + rest);
    assert ([f] + rest)[0] == f;
    assert '.' !in "$" + inner;
    assert '.' !in owner + "$" + inner;
    assert pkg + "." + owner + "$" + inner == pkg + "." + (owner + "$" + inner);
    ClassNameOnlyOfQualified(pkg, owner + "$" + inner);
  }
}

=== FILE: caller.dfy ===
/** Caller resolution and message enhancement: find the logging call's
    frame on the stack and splice its location and the thread into the
    message. */
module CallerResolution {
  import opened Options
  import opened Text
  import opened CallerPattern

  /** A `StackTraceElement`: declaring class, method and line (Java's line
      number may be negative when unknown, hence `int`). */
  datatype Frame = Frame(className: string, methodName: string, line: int)

  /** The placeholder returned when no frame matches. */
  const NOT_FOUND: Frame := Frame("", "", 0)

  predicate FrameMatches(p: Pattern, f: Frame) {
    FullMatch(p, f.className)
  }

  /** Index of the first frame at or after `from` whose class matches, or
      `|stack|` when there is none. */
  function CallerIndex(p: Pattern, stack: seq<Frame>, from: nat): (k: nat)
    requires from <= |stack|
    ensures from <= k <= |stack|
    ensures k < |stack| ==> FrameMatches(p, stack[k])
    ensures forall j :: from <= j < k ==> !FrameMatches(p, stack[j])
    decreases |stack| - from
  {
    if from == |stack| then from
    else if FrameMatches(p, stack[from]) then from
    else CallerIndex(p, stack, from + 1)
  }

  /** `determineCaller`: scan the stack in order and return the first frame
      whose class name the pattern fully matches; `NOT_FOUND` when none
      does. Never fails. */
  function DetermineCaller(p: Pattern, stack: seq<Frame>): (caller: Frame)
    ensures (forall k :: 0 <= k < |stack| ==> !FrameMatches(p, stack[k])) ==> caller == NOT_FOUND
    ensures (exists k :: 0 <= k < |stack| && FrameMatches(p, stack[k])) ==>
      exists k :: 0 <= k < |stack| && caller == stack[k] && FrameMatches(p, stack[k])
        && forall j :: 0 <= j < k ==> !FrameMatches(p, stack[j])
  {
    var k := CallerIndex(p, stack, 0);
    if k < |stack| then stack[k] else NOT_FOUND
  }

  /** Frames before the first matching one do not influence the result. */
  lemma DetermineCallerSkipsNonMatching(p: Pattern, skipped: seq<Frame>, rest: seq<Frame>)
    requires forall j :: 0 <= j < |skipped| ==> !FrameMatches(p, skipped[j])
    ensures DetermineCaller(p, skipped + rest) == DetermineCaller(p, rest)
  {
    var s := skipped + rest;
    var k := CallerIndex(p, s, 0);
    var m := CallerIndex(p, rest, 0);
    assert k >= |skipped|;
    if m < |rest| {
      assert s[|skipped| + m] == rest[m];
      assert forall j :: 0 <= j < m ==> s[|skipped| + j] == rest[j];
      assert k == |skipped| + m;
    } else {
      assert forall j :: |skipped| <= j < |s| ==> s[j] == rest[j - |skipped|];
      assert k == |s|;
    }
  }

  /** `getClassNameOnly`: the part of a qualified class name after its last
      `.`, or the whole name when it has no `.`. */
  function ClassNameOnly(qualified: string): (simple: string)
    ensures '.' !in simple
    ensures |simple| <= |qualified| && simple == qualified[|qualified| - |simple|..]
    ensures '.' !in qualified ==> simple == qualified
    ensures '.' in qualified ==> qualified[|qualified| - |simple| - 1] == '.'
  {
    var dot := LastIndexOf(qualified, '.');
    if dot == -1 then qualified
    else
      var simple := qualified[dot + 1..];
      assert forall j :: 0 <= j < |simple| ==> simple[j] == qualified[dot + 1 + j];
      simple
  }

  /** A package prefix is stripped and the simple name kept. */
  lemma ClassNameOnlyOfQualified(pkg: string, simple: string)
    requires '.' !in simple
    ensures ClassNameOnly(pkg + "." + simple) == simple
  {
    var q := pkg + "." + simple;
    var r := ClassNameOnly(q);
    assert q[|pkg|] == '.';
    assert q[|pkg| + 1..] == simple;
  }

  /** Stripping twice is stripping once. */
  lemma ClassNameOnlyIdempotent(qualified: string)
    ensures ClassNameOnly(ClassNameOnly(qualified)) == ClassNameOnly(qualified)
  {
  }

  /** The bracketed location `<Class>:<method>:<line>`. */
  function Location(f: Frame): string {
    ClassNameOnly(f.className) + ":" + f.methodName + ":" + IntToDecimal(f.line)
  }

  /** The three fields a location is made of. */
  datatype LocationFields = LocationFields(simpleClass: string, methodName: string, line: int)

  /** Splits a location at its first two `:` and reads the line number. */
  function ParseLocation(s: string): Option<LocationFields> {
    var i := IndexOf(s, ':');
    if i == -1 then None
    else
      var rest := s[i + 1..];
      var j := IndexOf(rest, ':');
      if j == -1 then None
      else match ParseInt(rest[j + 1..])
        case None => None
        case Some(n) => Some(LocationFields(s[..i], rest[..j], n))
  }

  /** Splitting `a + [c] + b` at its first `c` gives back `a` and `b` when
      `a` holds no `c`. */
  lemma SplitAtFirst(a: string, c: char, b: string)
    requires c !in a
    ensures var s := a + [c] + b;
            IndexOf(s, c) == |a| && s[..|a|] == a && s[|a| + 1..] == b
  {
    IndexOfAfterPrefix(a, c, b);
    var s := a + [c] + b;
    assert s[..|a|] == a;
    assert s[|a| + 1..] == b;
  }

  /** Parsing `cls:method:digits` gives back the three parts. */
  lemma ParseJoined(cls: string, m: string, d: string, n: int)
    requires ':' !in cls && ':' !in m && ParseInt(d) == Some(n)
    ensures ParseLocation(cls + ":" + m + ":" + d) == Some(LocationFields(cls, m, n))
  {
    var tail := m + [':'] + d;
    assert cls + ":" + m + ":" + d == cls + [':'] + tail;
    SplitAtFirst(cls, ':', tail);
    SplitAtFirst(m, ':', d);
  }

  /** The location can be read back into the frame's simple class name,
      method and line, provided those names hold no `:`. */
  lemma LocationRoundTrip(f: Frame)
    requires ':' !in ClassNameOnly(f.className) && ':' !in f.methodName
    ensures ParseLocation(Location(f)) ==
      Some(LocationFields(ClassNameOnly(f.className), f.methodName, f.line))
  {
    IntRoundTrip(f.line);
    ParseJoined(ClassNameOnly(f.className), f.methodName, IntToDecimal(f.line), f.line);
  }

  /** `r` reads as `message`, then ` [`, then `loc`, then `] `, then
      `thread`, with nothing else around them. */
  predicate IsLayout(r: string, message: string, loc: string, thread: string) {
    && |r| == |message| + |loc| + 4 + |thread|
    && StartsWith(r, message)
    && r[|message|..|message| + 2] == " ["
    && r[|message| + 2..|r| - |thread| - 2] == loc
    && r[|r| - |thread| - 2..] == "] " + thread
  }

  /** The fixed layout `"<message> [<location>] <thread>"`. */
  function Layout(message: string, loc: string, thread: string): (r: string)
    ensures IsLayout(r, message, loc, thread)
  {
    var r := message + " [" + loc + "] " + thread;
    assert r[..|message|] == message;
    assert r[|message| + 2..|r| - |thread| - 2] == loc;
    r
  }

  /** The layout pins the string down: its parts determine it. */
  lemma LayoutIsUnique(r: string, message: string, loc: string, thread: string)
    requires IsLayout(r, message, loc, thread)
    ensures r == message + " [" + loc + "] " + thread
  {
    var a := |message|;
    var b := |r| - |thread| - 2;
    assert r == r[..a] + r[a..a + 2] + r[a + 2..b] + r[b..];
  }

  /** `enhanced`: `"<message> [<Class>:<method>:<line>] <thread>"` for the
      caller resolved from `stack`; `thread` is the thread's rendering. */
  function Enhanced(p: Pattern, stack: seq<Frame>, thread: string, message: string): (r: string)
    ensures IsLayout(r, message, Location(DetermineCaller(p, stack)), thread)
  {
    Layout(message, Location(DetermineCaller(p, stack)), thread)
  }

  /** Reading the bracket back out of an enhanced message recovers the
      caller's simple class name, method and line. */
  lemma {:induction false} EnhancedRecoversCaller(p: Pattern, stack: seq<Frame>, thread: string, message: string)
    requires var f := DetermineCaller(p, stack); ':' !in ClassNameOnly(f.className) && ':' !in f.methodName
    ensures var f := DetermineCaller(p, stack);
            var r := Enhanced(p, stack, thread, message);
            ParseLocation(r[|message| + 2..|r| - |thread| - 2]) ==
              Some(LocationFields(ClassNameOnly(f.className), f.methodName, f.line))
  {
    var f := DetermineCaller(p, stack);
    var r := Enhanced(p, stack, thread, message);
    assert r[|message| + 2..|r| - |thread| - 2] == Location(f);
    LocationRoundTrip(f);
  }

  /** With no matching frame the message still goes out, carrying the
      placeholder location `::0`. */
  lemma EnhancedWithoutCaller(p: Pattern, stack: seq<Frame>, thread: string, message: string)
    requires forall k :: 0 <= k < |stack| ==> !FrameMatches(p, stack[k])
    ensures Enhanced(p, stack, thread, message) == message + " [::0] " + thread
  {
    var f := DetermineCaller(p, stack);
    assert f == NOT_FOUND;
    assert ClassNameOnly("") == "";
    assert IntToDecimal(0) == "0";
    assert Location(f) == "::0";
  }
}

=== FILE: caller_pattern.dfy ===
/** The caller-matching pattern every adapter compiles from its name:
    the Java regular expression `name(\$+.*)?`, used with a full match.

    The name part is compiled to a sequence of elements, one per character
    of the name; the trailing nested-type group `(\$+.*)?` is the same for
    every adapter and is built into `FullMatch`. */
module CallerPattern {

  /** One compiled character of the name: a literal, the `.` wildcard, or the
      `$` end-of-input anchor. */
  datatype Elem = Lit(c: char) | AnyChar | EndAnchor

  type Pattern = seq<Elem>

  /** Characters Java's `.` does not match (no DOTALL, no UNIX_LINES). */
  predicate IsLineTerminator(c: char) {
    c == '\n' || c == '\r' || c == '\U{0085}' || c == '\U{2028}' || c == '\U{2029}'
  }

  /** Characters with a special meaning outside a character class. */
  predicate IsMetaChar(c: char) {
    c in "\\^$.|?*+()[]{}"
  }

  /** Names whose unquoted compilation is modelled: every character is a
      `.`, a `$` or a literal other than a line terminator (Java class names
      are of this form). */
  predicate ModelledName(name: string) {
    forall i :: 0 <= i < |name| ==>
      !IsLineTerminator(name[i]) && (name[i] == '.' || name[i] == '$' || !IsMetaChar(name[i]))
  }

  /** No element is a literal line terminator. */
  predicate NoLiteralTerminator(p: Pattern) {
    forall i :: 0 <= i < |p| ==> !(p[i].Lit? && IsLineTerminator(p[i].c))
  }

  function CompileChar(c: char): Elem {
    if c == '.' then AnyChar else if c == '$' then EndAnchor else Lit(c)
  }

  /** `Pattern.compile(name + "(\\$+.*)?")` exactly as the adapter's
      constructor writes it: the name is not quoted, so its `.` and `$`
      keep their regex meaning. */
  function CompileAsWritten(name: string): (p: Pattern)
    requires ModelledName(name)
    ensures |p| == |name|
    ensures forall i :: 0 <= i < |name| ==> p[i] == CompileChar(name[i])
    ensures NoLiteralTerminator(p)
  {
    if |name| == 0 then [] else [CompileChar(name[0])] + CompileAsWritten(name[1..])
  }

  /** The evidently intended compilation, `Pattern.quote(name) + "(\\$+.*)?"`:
      every character of the name stands for itself. */
  function CompileQuoted(name: string): (p: Pattern)
    ensures |p| == |name|
    ensures forall i :: 0 <= i < |name| ==> p[i] == Lit(name[i])
  {
    if |name| == 0 then [] else [Lit(name[0])] + CompileQuoted(name[1..])
  }

  /** What the group `(\$+.*)?` fully matches: nothing, or a `$` followed by
      any characters other than line terminators. */
  predicate NestedSuffix(s: string) {
    |s| == 0 || (s[0] == '$' && forall i :: 1 <= i < |s| ==> !IsLineTerminator(s[i]))
  }

  /** `Matcher.matches()`: the whole of `s` is matched by the compiled name
      followed by `(\$+.*)?`. The pattern has fixed width before the group,
      so matching never backtracks. `$` is taken to match at the very end of
      the input only. Java also lets it match just before a final line
      terminator; from there only a literal line terminator could continue,
      since `.` and the group never consume one. So the definition is Java's
      for every pattern without anchors (all quoted names) and for every
      pattern satisfying `NoLiteralTerminator` (all unquoted names of
      `ModelledName`). */
  predicate FullMatch(p: Pattern, s: string)
    decreases |p|
  {
    if |p| == 0 then NestedSuffix(s)
    else match p[0]
      case Lit(c) => |s| > 0 && s[0] == c && FullMatch(p[1..], s[1..])
      case AnyChar => |s| > 0 && !IsLineTerminator(s[0]) && FullMatch(p[1..], s[1..])
      case EndAnchor => |s| == 0 && FullMatch(p[1..], s)
  }

  /** A consuming element matching one character. */
  predicate ElemMatches(e: Elem, c: char) {
    match e
    case Lit(x) => c == x
    case AnyChar => !IsLineTerminator(c)
    case EndAnchor => false
  }

  predicate AnchorFree(p: Pattern) {
    forall i :: 0 <= i < |p| ==> !p[i].EndAnchor?
  }

  /** The class names a pattern without anchors accepts: a prefix matched
      element by element, followed by a nested-type suffix. */
  lemma {:induction false} AnchorFreeLanguage(p: Pattern, s: string)
    requires AnchorFree(p)
    ensures FullMatch(p, s) <==>
      |p| <= |s| && (forall i :: 0 <= i < |p| ==> ElemMatches(p[i], s[i])) && NestedSuffix(s[|p|..])
    decreases |p|
  {
    if |p| == 0 {
      assert s[|p|..] == s;
    } else if |s| > 0 {
      var p', s' := p[1..], s[1..];
      assert AnchorFree(p');
      AnchorFreeLanguage(p', s');
      if |p| <= |s| {
        assert s'[|p'|..] == s[|p|..];
      }
      if |p| <= |s| && (forall i :: 0 <= i < |p| ==> ElemMatches(p[i], s[i])) {
        assert forall i :: 0 <= i < |p'| ==> ElemMatches(p'[i], s'[i]) by {
          forall i | 0 <= i < |p'| ensures ElemMatches(p'[i], s'[i]) {
            assert ElemMatches(p[i + 1], s[i + 1]);
          }
        }
        assert ElemMatches(p[0], s[0]);
      }
      if FullMatch(p, s) {
        assert forall i :: 0 <= i < |p| ==> ElemMatches(p[i], s[i]) by {
          forall i | 0 <= i < |p| ensures ElemMatches(p[i], s[i]) {
            if i > 0 {
              assert ElemMatches(p'[i - 1], s'[i - 1]);
            }
          }
        }
      }
    } else {
      assert !p[0].EndAnchor?;
    }
  }

  /** `c` is the owner class `name` itself or one of its nested classes. */
  predicate OwnerOrNested(name: string, c: string) {
    |name| <= |c| && c[..|name|] == name && NestedSuffix(c[|name|..])
  }

  /** The corrected pattern accepts exactly the owner and its nested
      classes. */
  lemma {:induction false} QuotedLanguage(name: string, c: string)
    ensures FullMatch(CompileQuoted(name), c) <==> OwnerOrNested(name, c)
  {
    var p := CompileQuoted(name);
    AnchorFreeLanguage(p, c);
    if |name| <= |c| {
      if c[..|name|] == name {
        forall i | 0 <= i < |p| ensures ElemMatches(p[i], c[i]) {
          assert c[..|name|][i] == c[i];
        }
      }
      if forall i :: 0 <= i < |p| ==> ElemMatches(p[i], c[i]) {
        forall i | 0 <= i < |name| ensures c[..|name|][i] == name[i] {
          assert ElemMatches(p[i], c[i]);
        }
        assert c[..|name|] == name;
      }
    }
  }

  /** `QuotedLanguage` for every class name at once. */
  lemma QuotedPatternLanguage(name: string)
    ensures forall c {:trigger FullMatch(CompileQuoted(name), c)} ::
      FullMatch(CompileQuoted(name), c) <==> OwnerOrNested(name, c)
  {
    forall c ensures FullMatch(CompileQuoted(name), c) <==> OwnerOrNested(name, c) {
      QuotedLanguage(name, c);
    }
  }

  /** The owner class itself matches. */
  lemma QuotedMatchesOwner(name: string)
    ensures FullMatch(CompileQuoted(name), name)
  {
    QuotedLanguage(name, name);
    assert name[..|name|] == name;
    assert name[|name|..] == [];
  }

  /** A nested class `name$inner` matches. */
  lemma {:induction false} QuotedMatchesNested(name: string, inner: string)
    requires forall i :: 0 <= i < |inner| ==> !IsLineTerminator(inner[i])
    ensures FullMatch(CompileQuoted(name), name + "$" + inner)
  {
    var c := name + "$" + inner;
    var t := c[|name|..];
    assert c[..|name|] == name;
    assert t == "$" + inner;
    assert NestedSuffix(t) by {
      forall i | 1 <= i < |t| ensures !IsLineTerminator(t[i]) {
        assert t[i] == inner[i - 1];
      }
    }
    assert OwnerOrNested(name, c);
    QuotedLanguage(name, c);
  }

  /** A longer name that does not continue with `$` is rejected, so the
      pattern for `Foo` does not accept `FooBar`. */
  lemma QuotedRejectsOtherContinuation(name: string, x: char, rest: string)
    requires x != '$'
    ensures !FullMatch(CompileQuoted(name), name + [x] + rest)
  {
    var c := name + [x] + rest;
    QuotedLanguage(name, c);
    assert c[|name|..][0] == x;
  }

  // ---------------------------------------------------------------------
  // The pattern as written

  /** What one character of an unquoted name accepts: `.` any character
      other than a line terminator, anything else itself. */
  predicate NameCharAccepts(n: char, c: char) {
    if n == '.' then !IsLineTerminator(c) else c == n
  }

  /** For names without `$`, the unquoted pattern accepts the name with each
      `.` standing for any one character other than a line terminator,
      followed by a nested-type suffix. */
  lemma {:induction false} AsWrittenDotMatchesAnyChar(name: string, c: string)
    requires ModelledName(name) && '$' !in name
    ensures FullMatch(CompileAsWritten(name), c) <==>
      |name| <= |c|
      && (forall i :: 0 <= i < |name| ==> NameCharAccepts(name[i], c[i]))
      && NestedSuffix(c[|name|..])
  {
    var p := CompileAsWritten(name);
    assert AnchorFree(p) by {
      forall i | 0 <= i < |p| ensures !p[i].EndAnchor? {
        assert name[i] != '$';
      }
    }
    AnchorFreeLanguage(p, c);
    if |name| <= |c| {
      var elems := forall i :: 0 <= i < |p| ==> ElemMatches(p[i], c[i]);
      var chars := forall i :: 0 <= i < |name| ==> NameCharAccepts(name[i], c[i]);
      if elems {
        forall i | 0 <= i < |name| ensures NameCharAccepts(name[i], c[i]) {
          assert ElemMatches(p[i], c[i]) && name[i] != '$';
        }
      }
      if chars {
        forall i | 0 <= i < |p| ensures ElemMatches(p[i], c[i]) {
          assert NameCharAccepts(name[i], c[i]) && name[i] != '$';
        }
      }
      assert elems <==> chars;
    }
  }

  /** The class names the unquoted pattern of a `$`-free name accepts. */
  predicate AsWrittenAccepts(name: string, c: string) {
    |name| <= |c|
    && (forall i :: 0 <= i < |name| ==> NameCharAccepts(name[i], c[i]))
    && NestedSuffix(c[|name|..])
  }

  /** `AsWrittenDotMatchesAnyChar` for every class name at once. */
  lemma AsWrittenPatternLanguage(name: string)
    requires ModelledName(name) && '$' !in name
    ensures forall c {:trigger FullMatch(CompileAsWritten(name), c)} ::
      FullMatch(CompileAsWritten(name), c) <==> AsWrittenAccepts(name, c)
  {
    forall c ensures FullMatch(CompileAsWritten(name), c) <==> AsWrittenAccepts(name, c) {
      AsWrittenDotMatchesAnyChar(name, c);
    }
  }

  /** The unquoted pattern of a `$`-free name accepts the owner's nested
      classes `name$inner`. */
  lemma {:induction false} AsWrittenMatchesNested(name: string, inner: string)
    requires ModelledName(name) && '$' !in name
    requires forall i :: 0 <= i < |inner| ==> !IsLineTerminator(inner[i])
    ensures FullMatch(CompileAsWritten(name), name + "$" + inner)
  {
    var c := name + "$" + inner;
    var t := c[|name|..];
    assert t == "$" + inner;
    assert NestedSuffix(t) by {
      forall i | 1 <= i < |t| ensures !IsLineTerminator(t[i]) {
        assert t[i] == inner[i - 1];
      }
    }
    forall i | 0 <= i < |name| ensures NameCharAccepts(name[i], c[i]) {
      assert c[i] == name[i];
    }
    AsWrittenDotMatchesAnyChar(name, c);
  }

  /** A name with no `.` and no `$` compiles the same either way, so for such
      names the source's pattern is the intended one. */
  lemma AsWrittenAgreesOnPlainNames(name: string)
    requires '.' !in name && '$' !in name && ModelledName(name)
    ensures CompileAsWritten(name) == CompileQuoted(name)
  {
    var p, q := CompileAsWritten(name), CompileQuoted(name);
    forall i | 0 <= i < |name| ensures p[i] == q[i] {
      assert name[i] != '.' && name[i] != '$';
    }
  }

  /** An end anchor followed by an element that consumes a character other
      than a line terminator can never be part of a full match. */
  lemma {:induction false} AnchorThenCharNeverMatches(p: Pattern, k: nat, s: string)
    requires k + 1 < |p| && p[k].EndAnchor? && !p[k + 1].EndAnchor?
    requires !(p[k + 1].Lit? && IsLineTerminator(p[k + 1].c))
    ensures !FullMatch(p, s)
    decreases k
  {
    if k > 0 {
      match p[0]
      case Lit(_) =>
        if |s| > 0 { AnchorThenCharNeverMatches(p[1..], k - 1, s[1..]); }
      case AnyChar =>
        if |s| > 0 { AnchorThenCharNeverMatches(p[1..], k - 1, s[1..]); }
      case EndAnchor =>
        AnchorThenCharNeverMatches(p[1..], k - 1, s);
    } else {
      var q := p[1..];
      assert q[0] == p[1];
    }
  }

  /** A logger named after a nested class, `Outer$Inner`, never matches any
      class name at all, its own included: the unquoted `$` is an anchor
      that demands the end of the input while `Inner` is still to come. */
  lemma AsWrittenDollarNameMatchesNothing(name: string, k: nat, c: string)
    requires ModelledName(name)
    requires k + 1 < |name| && name[k] == '$' && name[k + 1] != '$'
    ensures !FullMatch(CompileAsWritten(name), c)
  {
    AnchorThenCharNeverMatches(CompileAsWritten(name), k, c);
  }

  /** The language of every modelled unquoted name: the one above when it
      has no `$`, and nothing at all when a `$` in it is followed by a
      character other than `$`. */
  lemma AsWrittenLanguage(name: string)
    requires ModelledName(name)
    ensures '$' !in name ==>
      forall c {:trigger FullMatch(CompileAsWritten(name), c)} ::
        FullMatch(CompileAsWritten(name), c) <==> AsWrittenAccepts(name, c)
    ensures (exists k :: 0 <= k < |name| - 1 && name[k] == '$' && name[k + 1] != '$') ==>
      forall c {:trigger FullMatch(CompileAsWritten(name), c)} :: !FullMatch(CompileAsWritten(name), c)
  {
    if '$' !in name {
      AsWrittenPatternLanguage(name);
    }
    if exists k :: 0 <= k < |name| - 1 && name[k] == '$' && name[k + 1] != '$' {
      var k :| 0 <= k < |name| - 1 && name[k] == '$' && name[k + 1] != '$';
      forall c ensures !FullMatch(CompileAsWritten(name), c) {
        AsWrittenDollarNameMatchesNothing(name, k, c);
      }
    }
  }

  /** Concrete instance: the frames of `p.Outer$Inner` are not recognised
      by its own logger, while the quoted pattern recognises them. */
  lemma NestedClassLoggerCounterexample()
    ensures !FullMatch(CompileAsWritten("p.Outer$Inner"), "p.Outer$Inner")
    ensures FullMatch(CompileQuoted("p.Outer$Inner"), "p.Outer$Inner")
  {
    var name := "p.Outer$Inner";
    assert name[7] == '$' && name[8] == 'I';
    AsWrittenDollarNameMatchesNothing(name, 7, name);
    QuotedMatchesOwner(name);
  }

  /** Concrete instance: the logger `a.b` claims frames of class `aXb`,
      which the quoted pattern rejects. */
  lemma DotOvermatchCounterexample()
    ensures FullMatch(CompileAsWritten("a.b"), "aXb")
    ensures !FullMatch(CompileQuoted("a.b"), "aXb")
  {
    var p := CompileAsWritten("a.b");
    assert p == [Lit('a'), AnyChar, Lit('b')];
    var q := CompileQuoted("a.b");
    assert q == [Lit('a'), Lit('.'), Lit('b')];
  }
}

=== FILE: configuration.dfy ===
/** Start-up configuration and the level gate: property lookup, level
    parsing, the threshold and tag, and `isLevelEnabled`. */
module Configuration {
  import opened Options
  import opened Text
  import opened LogLevels

  const SYSTEM_PREFIX: string := "de.psdev.slf4j.android.logger."
  const DEFAULT_LOG_LEVEL_KEY: string := SYSTEM_PREFIX + "defaultLogLevel"
  const LOG_TAG_KEY: string := SYSTEM_PREFIX + "logTag"
  const DEFAULT_LOG_TAG: string := "Slf4jAndroidLogger"

  /** A property source: JVM system properties, or the bundled
      `logger.properties` file. An absent key is an absent entry. */
  type Properties = map<string, string>

  /** `getStringProperty(name)`: the system property if set, else the file's
      value, else nothing. */
  function GetStringProperty(system: Properties, file: Properties, key: string): (r: Option<string>)
    ensures r.Some? <==> key in system || key in file
    ensures key in system ==> r == Some(system[key])
    ensures key !in system && key in file ==> r == Some(file[key])
  {
    if key in system then Some(system[key])
    else if key in file then Some(file[key])
    else None
  }

  /** Property lookup is lookup in the file's entries overlaid by the system
      properties. */
  lemma SystemOverridesFile(system: Properties, file: Properties, key: string)
    ensures var merged := file + system;
            GetStringProperty(system, file, key) == if key in merged then Some(merged[key]) else None
  {
  }

  /** `getStringProperty(name, defaultValue)`. */
  function GetStringPropertyOr(system: Properties, file: Properties, key: string, default: string): (r: string)
    ensures key in system ==> r == system[key]
    ensures key !in system && key in file ==> r == file[key]
    ensures key !in system && key !in file ==> r == default
  {
    GetStringProperty(system, file, key).GetOr(default)
  }

  /** `getBooleanProperty(name, defaultValue)`: a present value is true
      exactly when it is "true" ignoring case. */
  function GetBooleanProperty(system: Properties, file: Properties, key: string, default: bool): (b: bool)
    ensures key !in system && key !in file ==> b == default
    ensures key in system ==> (b <==> Fold(system[key]) == "true")
    ensures key !in system && key in file ==> (b <==> Fold(file[key]) == "true")
  {
    match GetStringProperty(system, file, key)
    case None => default
    case Some(v) => EqualsIgnoreCase("true", v)
  }

  /** A boolean property reads the same however its value is cased, and
      "TRUE" reads as true whatever the default. */
  lemma {:induction false} BooleanPropertyIgnoresCase(system: Properties, file: Properties, key: string, default: bool)
    requires key in system
    ensures GetBooleanProperty(system[key := Upper(system[key])], file, key, default)
         == GetBooleanProperty(system, file, key, default)
    ensures GetBooleanProperty(system[key := "TRUE"], file, key, default)
  {
    FoldUpper(system[key]);
    assert Fold("TRUE") == "true";
  }

  /** The same for a value that comes from the file alone. */
  lemma {:induction false} FileBooleanPropertyIgnoresCase(system: Properties, file: Properties, key: string, default: bool)
    requires key !in system && key in file
    ensures GetBooleanProperty(system, file[key := Upper(file[key])], key, default)
         == GetBooleanProperty(system, file, key, default)
    ensures GetBooleanProperty(system, file[key := "TRUE"], key, default)
  {
    FoldUpper(file[key]);
    assert Fold("TRUE") == "true";
  }

  /** `stringToLevel`: total and case-insensitive; "trace" and "verbose" both
      mean TRACE, and anything unrecognised means INFO. */
  function StringToLevel(s: string): (l: LogLevel)
    ensures l == TRACE <==> Fold(s) == "trace" || Fold(s) == "verbose"
    ensures l == DEBUG <==> Fold(s) == "debug"
    ensures l == WARN <==> Fold(s) == "warn"
    ensures l == ERROR <==> Fold(s) == "error"
    ensures l == INFO <==> Fold(s) !in ["trace", "verbose", "debug", "warn", "error"]
  {
    if EqualsIgnoreCase("trace", s) then TRACE
    else if EqualsIgnoreCase("verbose", s) then TRACE
    else if EqualsIgnoreCase("debug", s) then DEBUG
    else if EqualsIgnoreCase("info", s) then INFO
    else if EqualsIgnoreCase("warn", s) then WARN
    else if EqualsIgnoreCase("error", s) then ERROR
    else INFO
  }

  /** The lower-case spelling of each level. */
  function LevelName(l: LogLevel): (s: string)
    ensures forall i :: 0 <= i < |s| ==> 'a' <= s[i] <= 'z'
  {
    match l
    case TRACE => "trace"
    case DEBUG => "debug"
    case INFO => "info"
    case WARN => "warn"
    case ERROR => "error"
  }

  /** Parsing a level's name, in any ASCII case, gives back the level; in
      particular the enum constant's own name (`TRACE`, ...) parses to it. */
  lemma {:induction false} StringToLevelRoundTrip(l: LogLevel)
    ensures StringToLevel(LevelName(l)) == l
    ensures StringToLevel(Upper(LevelName(l))) == l
  {
    StringToLevelIgnoresCase(LevelName(l));
    FoldLowerIsIdentity(LevelName(l));
  }

  /** Upper-casing a configuration value never changes the level it names. */
  lemma {:induction false} StringToLevelIgnoresCase(s: string)
    ensures StringToLevel(Upper(s)) == StringToLevel(s)
  {
    FoldUpper(s);
  }

  /** The process-wide logging policy: minimum enabled level and tag. */
  datatype Config = Config(threshold: LogLevel, tag: string)

  /** The static initialiser: start from INFO and the default tag, then
      apply the configured level (if any) and tag, each looked up with the
      system property taking precedence over the file. */
  function Configure(system: Properties, file: Properties): (cfg: Config)
    ensures GetStringProperty(system, file, DEFAULT_LOG_LEVEL_KEY).None? ==> cfg.threshold == INFO
    ensures GetStringProperty(system, file, DEFAULT_LOG_LEVEL_KEY).Some? ==>
      cfg.threshold == StringToLevel(GetStringProperty(system, file, DEFAULT_LOG_LEVEL_KEY).value)
    ensures cfg.tag == GetStringPropertyOr(system, file, LOG_TAG_KEY, DEFAULT_LOG_TAG)
  {
    var initial := Config(INFO, DEFAULT_LOG_TAG);
    var leveled := match GetStringProperty(system, file, DEFAULT_LOG_LEVEL_KEY)
      case Some(v) => SetLogLevel(initial, StringToLevel(v))
      case None => initial;
    SetLogTag(leveled, GetStringPropertyOr(system, file, LOG_TAG_KEY, DEFAULT_LOG_TAG))
  }

  /** The system properties act as an overlay on the file: the initial
      configuration is the one read from the merged file alone. */
  lemma ConfigureSeesOverlay(system: Properties, file: Properties)
    ensures Configure(system, file) == Configure(map[], file + system)
  {
    SystemOverridesFile(system, file, DEFAULT_LOG_LEVEL_KEY);
    SystemOverridesFile(system, file, LOG_TAG_KEY);
    SystemOverridesFile(map[], file + system, DEFAULT_LOG_LEVEL_KEY);
    SystemOverridesFile(map[], file + system, LOG_TAG_KEY);
  }

  /** Without any configuration the defaults apply. */
  lemma ConfigureDefaults()
    ensures Configure(map[], map[]) == Config(INFO, DEFAULT_LOG_TAG)
  {
  }

  /** The bundled test configuration: tag `TestLogTag`, level `verbose`. */
  lemma ConfigureFromFile()
    ensures Configure(map[], map[LOG_TAG_KEY := "TestLogTag", DEFAULT_LOG_LEVEL_KEY := "verbose"])
         == Config(TRACE, "TestLogTag")
  {
    assert LOG_TAG_KEY != DEFAULT_LOG_LEVEL_KEY by {
      assert LOG_TAG_KEY[|SYSTEM_PREFIX|] != DEFAULT_LOG_LEVEL_KEY[|SYSTEM_PREFIX|];
    }
    assert Fold("verbose") == "verbose";
  }

  /** `setLogLevel`: only the threshold changes. */
  function SetLogLevel(cfg: Config, l: LogLevel): (r: Config)
    ensures r.threshold == l && r.tag == cfg.tag
  {
    cfg.(threshold := l)
  }

  /** `setLogTag`: only the tag changes. */
  function SetLogTag(cfg: Config, tag: string): (r: Config)
    ensures r.tag == tag && r.threshold == cfg.threshold
  {
    cfg.(tag := tag)
  }

  /** `isLevelEnabled`: compares Android priorities, which amounts to
      `level` being at or above the threshold in declaration order. */
  function IsLevelEnabled(level: LogLevel, threshold: LogLevel): (b: bool)
    ensures b <==> Ordinal(threshold) <= Ordinal(level)
  {
    AndroidPriority(level) >= AndroidPriority(threshold)
  }

  /** Enabling is upward closed: every level above an enabled one is enabled. */
  lemma EnabledIsMonotone(a: LogLevel, b: LogLevel, threshold: LogLevel)
    requires IsLevelEnabled(a, threshold) && Ordinal(a) <= Ordinal(b)
    ensures IsLevelEnabled(b, threshold)
  {
  }

  /** With threshold `t`, `t` is enabled and every lower level is not. */
  lemma ThresholdIsTheBoundary(lower: LogLevel, t: LogLevel)
    requires Ordinal(lower) < Ordinal(t)
    ensures IsLevelEnabled(t, t) && !IsLevelEnabled(lower, t)
  {
  }
}

=== FILE: factory.dfy ===
/** `AndroidLoggerFactory`: a cache of adapters keyed by logger name, filled
    on first request and never emptied. */
module Factory {
  import opened CallerPattern
  import opened AdapterCore

  type Registry = map<string, Adapter>

  /** Every cached adapter is the one constructed for its key. */
  predicate Valid(m: Registry) {
    forall k :: k in m ==> ModelledName(k) && m[k] == NewAdapter(k)
  }

  /** The check-then-insert step of `getLogger`: construct and store an
      adapter for `name` unless one is cached, then return the cached one. */
  function GetOrCreate(m: Registry, name: string): (res: (Registry, Adapter))
    requires ModelledName(name)
    ensures name in res.0 && res.0[name] == res.1
    ensures Valid(m) ==> Valid(res.0) && res.1.name == name
    ensures name in m ==> res.0 == m
    ensures name !in m ==> res.1 == NewAdapter(name)
    ensures res.0.Keys == m.Keys + {name}
    ensures forall k :: k in m ==> k in res.0 && res.0[k] == m[k]
    ensures name !in m ==> |res.0| == |m| + 1
  {
    var m' := if name !in m then m[name := NewAdapter(name)] else m;
    (m', m'[name])
  }

  /** The cache keeps one adapter per name, built from that name. */
  lemma GetOrCreatePreservesValid(m: Registry, name: string)
    requires ModelledName(name) && Valid(m)
    ensures Valid(GetOrCreate(m, name).0)
    ensures GetOrCreate(m, name).1.name == name
  {
  }

  /** Asking twice gives the same adapter and the second request stores
      nothing new. */
  lemma GetOrCreateIdempotent(m: Registry, name: string)
    requires ModelledName(name)
    ensures var (m1, a1) := GetOrCreate(m, name);
            var (m2, a2) := GetOrCreate(m1, name);
            m2 == m1 && a2 == a1
  {
  }

  /** Requests for other names never disturb an existing entry. */
  lemma GetOrCreateKeepsOthers(m: Registry, name: string, other: string)
    requires ModelledName(name) && other in m
    ensures var m1 := GetOrCreate(m, name).0; other in m1 && m1[other] == m[other]
  {
  }

  /** The factory object, holding the cache. */
  class AndroidLoggerFactory {
    var loggerMap: Registry

    ghost predicate Inv()
      reads this
    {
      Valid(loggerMap)
    }

    constructor()
      ensures loggerMap == map[] && Inv()
    {
      loggerMap := map[];
    }

    /** `getLogger(name)`. Runs under the map's lock in the source; modelled
        as one sequential step. */
    method GetLogger(name: string) returns (logger: Adapter)
      requires ModelledName(name) && Inv()
      modifies this
      ensures Inv()
      ensures name in loggerMap && loggerMap[name] == logger && logger.name == name
      ensures name in old(loggerMap) ==> loggerMap == old(loggerMap)
      ensures loggerMap.Keys == old(loggerMap).Keys + {name}
      ensures forall k :: k in old(loggerMap) ==> k in loggerMap && loggerMap[k] == old(loggerMap)[k]
    {
      var (m', a) := GetOrCreate(loggerMap, name);
      loggerMap := m';
      logger := a;
    }
  }
}

=== FILE: log_level.dfy ===
/** Priorities of `android.util.Log`, the platform sink. */
module AndroidLog {
  const VERBOSE: int := 2
  const DEBUG: int := 3
  const INFO: int := 4
  const WARN: int := 5
  const ERROR: int := 6
}

/** The five SLF4J levels and their Android priorities. */
module LogLevels {
  import opened Options
  import AndroidLog

  /** SLF4J levels, in declaration order. */
  datatype LogLevel = TRACE | DEBUG | INFO | WARN | ERROR

  /** Position in the enum's declaration order (`Enum.ordinal()`). */
  function Ordinal(l: LogLevel): nat {
    match l
    case TRACE => 0
    case DEBUG => 1
    case INFO => 2
    case WARN => 3
    case ERROR => 4
  }

  /** The Android priority each level was constructed with
      (`getAndroidLogLevel`). */
  function AndroidPriority(l: LogLevel): (p: int)
    ensures AndroidLog.VERBOSE <= p <= AndroidLog.ERROR
    ensures p == AndroidLog.VERBOSE + Ordinal(l)
  {
    match l
    case TRACE => AndroidLog.VERBOSE
    case DEBUG => AndroidLog.DEBUG
    case INFO => AndroidLog.INFO
    case WARN => AndroidLog.WARN
    case ERROR => AndroidLog.ERROR
  }

  /** Reverse lookup: the level constructed with priority `p`, if any. */
  function LevelOfPriority(p: int): (r: Option<LogLevel>)
    ensures r.Some? <==> AndroidLog.VERBOSE <= p <= AndroidLog.ERROR
  {
    if p == AndroidLog.VERBOSE then Some(TRACE)
    else if p == AndroidLog.DEBUG then Some(DEBUG)
    else if p == AndroidLog.INFO then Some(INFO)
    else if p == AndroidLog.WARN then Some(WARN)
    else if p == AndroidLog.ERROR then Some(ERROR)
    else None
  }

  /** Every level is recovered from its priority ... */
  lemma PriorityRoundTrip(l: LogLevel)
    ensures LevelOfPriority(AndroidPriority(l)) == Some(l)
  {
  }

  /** ... and every priority in range comes from exactly that level. */
  lemma LevelOfPriorityRoundTrip(p: int)
    requires AndroidLog.VERBOSE <= p <= AndroidLog.ERROR
    ensures AndroidPriority(LevelOfPriority(p).value) == p
  {
  }

  /** No two levels share a priority. */
  lemma PriorityInjective(a: LogLevel, b: LogLevel)
    ensures AndroidPriority(a) == AndroidPriority(b) <==> a == b
  {
  }

  /** Declaration order and priority order agree, so comparing priorities
      compares levels. */
  lemma PriorityOrderIsDeclarationOrder(a: LogLevel, b: LogLevel)
    ensures AndroidPriority(a) < AndroidPriority(b) <==> Ordinal(a) < Ordinal(b)
  {
  }
}

=== FILE: options.dfy ===
/** The optional-value datatype used wherever the Java code returns `null`
    for "absent". */
module Options {

  datatype Option<+T> = None | Some(value: T) {

    /** The carried value, or `default` when there is none. */
    function GetOr(default: T): T {
      match this
      case Some(v) => v
      case None => default
    }
  }
}

=== FILE: text.dfy ===
/** String helpers with the semantics of the `java.lang.String` and
    `java.lang.Integer` methods the logger relies on. Strings are sequences
    of Unicode scalar values. */
module Text {
  import opened Options

  /** Index of the last occurrence of `c` in `s`, or -1 when there is none
      (`String.lastIndexOf(char)`). */
  function LastIndexOf(s: string, c: char): (i: int)
    ensures -1 <= i < |s|
    ensures i == -1 <==> c !in s
    ensures 0 <= i ==> s[i] == c && forall j :: i < j < |s| ==> s[j] != c
  {
    if |s| == 0 then -1
    else if s[|s| - 1] == c then |s| - 1
    else LastIndexOf(s[..|s| - 1], c)
  }

  /** Index of the first occurrence of `c` in `s`, or -1 when there is none
      (`String.indexOf(char)`). */
  function IndexOf(s: string, c: char): (i: int)
    ensures -1 <= i < |s|
    ensures i == -1 <==> c !in s
    ensures 0 <= i ==> s[i] == c && forall j :: 0 <= j < i ==> s[j] != c
  {
    if |s| == 0 then -1
    else if s[0] == c then 0
    else
      var k := IndexOf(s[1..], c);
      if k == -1 then -1 else k + 1
  }

  /** `IndexOf` finds a separator placed right after a separator-free prefix. */
  lemma IndexOfAfterPrefix(a: string, c: char, b: string)
    requires c !in a
    ensures IndexOf(a + [c] + b, c) == |a|
  {
    var s := a + [c] + b;
    assert s[|a|] == c;
    assert forall j :: 0 <= j < |a| ==> s[j] == a[j];
  }

  /** `s.startsWith(prefix)`. */
  predicate StartsWith(s: string, prefix: string) {
    |prefix| <= |s| && s[..|prefix|] == prefix
  }

  // ---------------------------------------------------------------------
  // Case folding

  /** Folds a character onto the lower-case ASCII letter Java's
      `String.equalsIgnoreCase` treats it as equal to, if any: ASCII
      upper-case letters, DOTTED and DOTLESS I (U+0130, U+0131), LONG S
      (U+017F) and KELVIN SIGN (U+212A). Every other character is left
      alone. Comparing the folded string against a lower-case ASCII keyword
      is therefore exactly `keyword.equalsIgnoreCase(s)`. */
  function FoldChar(c: char): char {
    if 'A' <= c <= 'Z' then (c as int + 32) as char
    else if c == '\U{0130}' || c == '\U{0131}' then 'i'
    else if c == '\U{017F}' then 's'
    else if c == '\U{212A}' then 'k'
    else c
  }

  function Fold(s: string): (r: string)
    ensures |r| == |s|
    ensures forall i :: 0 <= i < |s| ==> r[i] == FoldChar(s[i])
  {
    if |s| == 0 then [] else [FoldChar(s[0])] + Fold(s[1..])
  }

  /** `keyword.equalsIgnoreCase(s)` for a lower-case ASCII `keyword`. */
  predicate EqualsIgnoreCase(keyword: string, s: string) {
    Fold(s) == keyword
  }

  /** A lower-case ASCII word folds to itself. */
  lemma FoldLowerIsIdentity(s: string)
    requires forall i :: 0 <= i < |s| ==> 'a' <= s[i] <= 'z'
    ensures Fold(s) == s
  {
    var r := Fold(s);
    forall i | 0 <= i < |s| ensures r[i] == s[i] {
      assert r[i] == FoldChar(s[i]);
    }
  }

  /** ASCII upper-casing, used to state case-insensitivity. */
  function UpperChar(c: char): char {
    if 'a' <= c <= 'z' then (c as int - 32) as char else c
  }

  function Upper(s: string): (r: string)
    ensures |r| == |s|
    ensures forall i :: 0 <= i < |s| ==> r[i] == UpperChar(s[i])
  {
    if |s| == 0 then [] else [UpperChar(s[0])] + Upper(s[1..])
  }

  /** Upper-casing does not change the folded form. */
  lemma {:induction false} FoldUpper(s: string)
    ensures Fold(Upper(s)) == Fold(s)
  {
    var a, b := Fold(Upper(s)), Fold(s);
    forall i | 0 <= i < |s| ensures a[i] == b[i] {
      var c := s[i];
      if 'a' <= c <= 'z' {
        assert UpperChar(c) == (c as int - 32) as char;
      }
    }
  }

  // ---------------------------------------------------------------------
  // Decimal rendering of integers

  predicate IsDigit(c: char) { '0' <= c <= '9' }

  predicate AllDigits(s: string) {
    forall i :: 0 <= i < |s| ==> IsDigit(s[i])
  }

  function DigitChar(d: nat): (c: char)
    requires d < 10
    ensures IsDigit(c)
  {
    ('0' as int + d) as char
  }

  function DigitValue(c: char): (d: nat)
    requires IsDigit(c)
    ensures d < 10 && DigitChar(d) == c
  {
    c as int - '0' as int
  }

  /** Decimal digits of `n`, most significant first, without leading zeros. */
  function NatToDecimal(n: nat): (s: string)
    ensures |s| >= 1 && AllDigits(s)
    ensures s[0] == '0' ==> n == 0
    decreases n
  {
    if n < 10 then [DigitChar(n)] else NatToDecimal(n / 10) + [DigitChar(n % 10)]
  }

  /** Value of a string of decimal digits. */
  function DecimalToNat(s: string): nat
    requires AllDigits(s)
  {
    if |s| == 0 then 0 else DecimalToNat(s[..|s| - 1]) * 10 + DigitValue(s[|s| - 1])
  }

  lemma {:induction false} DecimalRoundTrip(n: nat)
    ensures DecimalToNat(NatToDecimal(n)) == n
    decreases n
  {
    if n >= 10 {
      var s := NatToDecimal(n);
      assert s[..|s| - 1] == NatToDecimal(n / 10);
      DecimalRoundTrip(n / 10);
      assert DigitValue(DigitChar(n % 10)) == n % 10;
    } else {
      assert DigitValue(DigitChar(n)) == n;
    }
  }

  /** `Integer.toString(n)`: an optional minus sign followed by the digits. */
  function IntToDecimal(n: int): (s: string)
    ensures |s| >= 1
    ensures n >= 0 <==> AllDigits(s)
    ensures n < 0 <==> s[0] == '-'
    ensures n < 0 ==> |s| >= 2 && AllDigits(s[1..]) && s[1] != '0'
    ensures n >= 0 && s[0] == '0' ==> s == "0"
  {
    if n < 0 then
      var s := "-" + NatToDecimal(-n);
      assert !IsDigit(s[0]);
      s
    else NatToDecimal(n)
  }

  /** Reads back what `IntToDecimal` writes; `None` for anything else that
      is not a possibly-signed digit string. */
  function ParseInt(s: string): Option<int> {
    if |s| >= 2 && s[0] == '-' && AllDigits(s[1..]) then Some(0 - DecimalToNat(s[1..]) as int)
    else if |s| >= 1 && AllDigits(s) then Some(DecimalToNat(s))
    else None
  }

  lemma IntRoundTrip(n: int)
    ensures ParseInt(IntToDecimal(n)) == Some(n)
  {
    var s := IntToDecimal(n);
    if n < 0 {
      assert s[1..] == NatToDecimal(-n);
      DecimalRoundTrip(-n);
    } else {
      DecimalRoundTrip(n);
    }
  }
}
